=== FILE: README.md ===
# Queue-routing console: view-state and poll reconciliation model

A Dafny model of the pure core of the React console that watches a
queue-routing simulation. It covers:

- the zustand view-state store (`useSimulatorStore`) with its setters, its
  history capped at 100 snapshots, `reset` and the `partialize` projection;
- the three "apply a fetch outcome to local state" transitions. These are the
  dashboard's four-way poll, the metrics chart's history load and the policy
  comparison load;
- the derived display values. These are the KPI status colours, agent
  utilisation and the load-bar width, and the 20-agent, last-10-assignment
  and last-50-point windows.

JavaScript numbers are modelled as `real`. A value that may be `null`,
`undefined` or NaN is an `Option`. A settled network call is
`Fetched<T> = Success(value) | Failure`. A plain JavaScript object is a
sequence of key/value entries with no key twice (`Common.Obj`), in the order
`Object.keys` visits them.
`Array.prototype.slice` is modelled once, with ECMAScript's index clamping
(`Windows.Slice`). The code is modelled calling it as written (`slice(-99)`,
`slice(0, 20)`, `slice(-10)`, `slice(-50)`). Lemmas connect each call to the
plain "last k" or "first k" window.

Files: `common.dfy` (Option, Fetched, objects), `windows.dfy` (slice,
reverse, windows), `entities.dfy` (records), `store.dfy`
(simulatorStore.ts), `kpi_cards.dfy`, `agent_grid.dfy`, `dashboard.dfy`,
`metrics_chart.dfy`, `policy_comparison.dfy` (one per component).

The dashboard's `loadData` awaits its four fetches with `Promise.all`. One
rejection skips all four setters, so the model applies a poll
all-or-nothing (`Dashboard.LoadData`): one rejected fetch discards the
other three results.
Likewise, no batch-count range or policy-name validation exists anywhere in
the code, so none is modelled.

## Model

| member | source | states |
|---|---|---|
| Windows.Slice | frontend/src/components/Dashboard.js:101 | `slice` returns a prefix of the input from its clamped start index: the whole suffix when no end is given, empty when the clamped end is not past the clamped start, otherwise end minus start elements |
| Common.Lookup | frontend/src/components/AgentGrid.js:41 | `obj[key]` is absent exactly when no entry has that key, and otherwise is that entry's value (keys are distinct) |
| Common.Keys | frontend/src/components/PolicyComparison.js:30 | `Object.keys` yields the entries' names in enumeration order, one per entry, never the same name twice |
| Common.KeysAreLookupKeys | frontend/src/components/PolicyComparison.js:30 | a name is listed by `Object.keys` exactly when `obj[name]` finds an entry |
| Windows.SliceNegativeIsLast | frontend/src/store/simulatorStore.ts:100 | `slice(-k)` with k > 0 keeps exactly the last min(k, n) elements, in order |
| Windows.SlicePrefixIsFirst | frontend/src/components/AgentGrid.js:11 | `slice(0, k)` keeps exactly the first min(k, n) elements, in order |
| Windows.Reverse | frontend/src/components/Dashboard.js:101 | `reverse` keeps the length and puts element n-1-i at position i |
| Windows.LastAppend | frontend/src/store/simulatorStore.ts:100 | keeping the last k and appending one element is keeping the last k+1 of the extended sequence |
| Windows.LastAbsorbs | frontend/src/store/simulatorStore.ts:99-101 | truncating to the last k before appending more and truncating again equals truncating once at the end |
| SimulatorStore.AppendBounded | frontend/src/store/simulatorStore.ts:100 | the new history has at most 100 entries, is the last 100 of old history plus the metric, ends with the metric, and is exactly old + [metric] when the old history had fewer than 100 |
| SimulatorStore.AddHistoricalMetric | frontend/src/store/simulatorStore.ts:99-101 | after `addHistoricalMetric` the history is bounded by 100 whatever its prior length; it holds the most recent 100 of old + [metric]; no other field changes |
| SimulatorStore.SetMetrics | frontend/src/store/simulatorStore.ts:97 | replaces `metrics` wholesale; every other field is unchanged |
| SimulatorStore.SetAgents | frontend/src/store/simulatorStore.ts:103 | replaces `agents` wholesale; every other field is unchanged |
| SimulatorStore.SetSelectedAgent | frontend/src/store/simulatorStore.ts:105 | replaces `selectedAgent` (possibly with null); every other field is unchanged |
| SimulatorStore.SetAssignments | frontend/src/store/simulatorStore.ts:107 | replaces `assignments` wholesale; every other field is unchanged |
| SimulatorStore.SetSimulationStatus | frontend/src/store/simulatorStore.ts:109 | replaces `simulationStatus` wholesale; every other field is unchanged |
| SimulatorStore.SetDualVariables | frontend/src/store/simulatorStore.ts:111 | replaces `dualVariables` wholesale; every other field is unchanged |
| SimulatorStore.Reset | frontend/src/store/simulatorStore.ts:67-90 | `reset` yields zeroed metrics, empty history, agents and assignments, no selected agent, not running with batch 0 and elapsed time 0, and all three lambdas 0.1, from any state |
| SimulatorStore.ResetForgetsEverything | frontend/src/store/simulatorStore.ts:113 | `reset` after any sequence of actions gives the initial state; `reset` is idempotent |
| SimulatorStore.ApplyKeepsHistoryBounded | frontend/src/store/simulatorStore.ts:97-113 | every action keeps the history bound of 100; an append or a reset establishes it from any state |
| SimulatorStore.ApplyAllKeepsHistoryBounded | frontend/src/store/simulatorStore.ts:97-113 | from a bounded state, the history stays within 100 entries after any sequence of actions |
| SimulatorStore.AppendAllKeepsMostRecent | frontend/src/store/simulatorStore.ts:99-101 | after any run of appends the history is exactly the most recent 100 (or fewer) of old history followed by the added snapshots, in insertion order |
| SimulatorStore.SettersCommute | frontend/src/store/simulatorStore.ts:97-111 | any two non-reset actions that write different fields commute, since each touches only its own field |
| SimulatorStore.Partialize | frontend/src/store/simulatorStore.ts:117-120 | the persisted record carries the state's history and dual variables |
| SimulatorStore.PartializeSelectsExactly | frontend/src/store/simulatorStore.ts:117-120 | two states persist the same record if and only if they agree on history and dual variables, so no other field is persisted |
| SimulatorStore.Rehydrate | frontend/src/store/simulatorStore.ts:92-121 | merging a persisted record over the initial state gives back that record under `partialize`, with metrics, agents, selection, assignments and status at their initial values |
| SimulatorStore.RehydrateRoundTrip | frontend/src/store/simulatorStore.ts:92-121 | persisting a state and restarting restores its history and dual variables; restarting from a reset store gives exactly the initial state |
| KpiCards.StatusColor | frontend/src/components/KPICards.js:5-11 | for "higher": green iff value ≥ threshold, amber iff 0.8·threshold ≤ value < threshold, else red; for any other kind: green iff value ≤ threshold, amber iff threshold < value ≤ 1.2·threshold, else red |
| KpiCards.StatusColorMonotone | frontend/src/components/KPICards.js:5-11 | raising the value never lowers the tier for "higher"; lowering it never lowers the tier for any other kind; for every threshold |
| KpiCards.Colors | frontend/src/components/KPICards.js:20-53 | CSAT green iff ≥ 0.7 and amber iff in [0.56, 0.7); AHT green iff ≤ 8.0 and amber iff in (8.0, 9.6]; SLA green iff ≥ 0.85 and amber iff in [0.68, 0.85); Gini green iff ≤ 0.3 and amber iff in (0.3, 0.36] |
| KpiCards.ZeroMetricsColors | frontend/src/components/KPICards.js:20-53 | all-zero metrics show CSAT and SLA red and AHT and Gini green |
| AgentGrid.Utilization | frontend/src/components/AgentGrid.js:13 | a total capacity ≤ 0 gives utilisation 0 for any load; otherwise utilisation × total = load × 100 |
| AgentGrid.BarWidth | frontend/src/components/AgentGrid.js:28 | the bar width is at most 100, equal to the utilisation exactly when that is ≤ 100 and 100 otherwise |
| AgentGrid.ChannelCapacity | frontend/src/components/AgentGrid.js:41 | a channel's displayed capacity is its stored value, or 0 when the channel or the capacity object is missing |
| AgentGrid.ChannelRows | frontend/src/components/AgentGrid.js:37-44 | one row per `channel_loads` entry, in order, with its channel and load; the capacity shown is the capacity object's value for that channel, or 0 when the object or the key is missing |
| AgentGrid.ChannelRowsWithinTotal | frontend/src/components/AgentGrid.js:12-41 | with non-negative capacities every channel row's capacity lies in [0, total capacity]; a channel that is not a capacity key shows 0 |
| AgentGrid.CardOf | frontend/src/components/AgentGrid.js:14-52 | one card carries the agent's id, status and load and its total capacity; its bar is at most 100 wide, empty when the total is ≤ 0, full iff load ≥ a positive total, and otherwise load / total × 100 wide; its channel rows are the agent's |
| AgentGrid.SumValues | frontend/src/components/AgentGrid.js:12 | the reduce over `Object.values` starts at 0 and adds each value: an empty object sums to 0, a one-entry object to its value (with `SumValuesAppend` this fixes the sum of any object), and non-negative values give a non-negative sum |
| AgentGrid.TotalCapacity | frontend/src/components/AgentGrid.js:12 | the total is the sum of the capacity object's values; a missing capacity object (`capacity \|\| {}`) or an empty one gives total 0; non-negative capacities give a non-negative total |
| AgentGrid.SumValuesAppend | frontend/src/components/AgentGrid.js:12 | the sum over two runs of entries is the sum of their sums |
| AgentGrid.SumValuesOrderFree | frontend/src/components/AgentGrid.js:12 | any two entry sequences that are permutations of each other (equal multisets) have the same sum, so the total does not depend on enumeration order |
| AgentGrid.Render | frontend/src/components/AgentGrid.js:5-11 | a null or empty list shows the no-data branch; otherwise the cards are exactly the first min(20, n) agents, in order |
| AgentGrid.SumValuesBounds | frontend/src/components/AgentGrid.js:12 | non-negative capacity values sum to a non-negative total that is at least each single value |
| AgentGrid.ChannelCapacityWithinTotal | frontend/src/components/AgentGrid.js:12-41 | with non-negative capacities, a channel's displayed capacity lies between 0 and the agent's total capacity |
| AgentGrid.BarFullIffAtCapacity | frontend/src/components/AgentGrid.js:13-28 | with a positive total the bar is full iff load ≥ total capacity; a non-negative load gives a width in [0, 100] |
| AgentGrid.NoCapacityEmptyBar | frontend/src/components/AgentGrid.js:13-28 | a total capacity ≤ 0 gives an empty bar for any load |
| Dashboard.LoadData | frontend/src/components/Dashboard.js:30-46 | when all four fetches succeed, metrics, agents, assignments and status are each replaced by the fetched value; if any fails, the state is unchanged |
| Dashboard.LoadAllShowsLastComplete | frontend/src/components/Dashboard.js:24-46 | after any run of polls the state is what the last fully successful poll set, or the prior state if none succeeded; no half-applied state |
| Dashboard.CompletePollForgetsPriorState | frontend/src/components/Dashboard.js:39-42 | a fully successful poll's result does not depend on the prior state, and applying it twice equals applying it once |
| Dashboard.InitialShowsNoData | frontend/src/components/Dashboard.js:11-21 | the mounted dashboard has zero metrics and is not running, and it shows no agent cards and the no-assignments message |
| Dashboard.HandleStart | frontend/src/components/Dashboard.js:48-56 | a successful start triggers exactly one refresh and no alert; a failed start alerts, does not refresh and leaves the state unchanged |
| Dashboard.HandleStop | frontend/src/components/Dashboard.js:58-65 | a successful stop triggers one refresh; a failed stop neither alerts nor refreshes and leaves the state unchanged |
| Dashboard.StartStopDifferOnlyInAlert | frontend/src/components/Dashboard.js:48-65 | start and stop produce the same state and refresh count; their alerts differ exactly on failure |
| Dashboard.RecentAssignments | frontend/src/components/Dashboard.js:101 | the table rows are the last min(10, n) assignments newest first: row i is assignment n-1-i, and row 0 is the newest |
| Dashboard.CustomerCellOf | frontend/src/components/Dashboard.js:103 | the customer cell shows the assignment's id exactly when it is a non-empty string, else the placeholder for that row's index |
| Dashboard.RenderAssignments | frontend/src/components/Dashboard.js:86-110 | an empty list shows the no-data message; otherwise min(10, n) rows, newest first: row i shows assignment n-1-i's customer cell (with index i), agent, channel and SLA mark |
| MetricsChart.ToPoint | frontend/src/components/MetricsChart.js:21-27 | each numeric field is its parsed value or 0 when unparseable; `sla` is the coerced rate × 100; `batch` is `batch_id` unchanged |
| MetricsChart.Window | frontend/src/components/MetricsChart.js:21 | at most 50 points: the coerced last min(50, n) response entries, in original order |
| MetricsChart.Load | frontend/src/components/MetricsChart.js:16-35 | `loading` is false after any load; data is replaced by the window only for a response with a non-empty `data` array, and kept otherwise, including on failure |
| MetricsChart.Render | frontend/src/components/MetricsChart.js:37-43 | loading shows the loading message; a loaded empty series shows no-data; otherwise the chart of the held points |
| MetricsChart.LoadAllShowsLastUsable | frontend/src/components/MetricsChart.js:8-35 | the spinner shows until the first load settles; afterwards the chart holds the window of the last usable response, or its earlier data when none was usable |
| MetricsChart.ToPointRanges | frontend/src/components/MetricsChart.js:25 | an SLA rate in [0, 1], or an unparseable one, plots within [0, 100] |
| MetricsChart.ChartNeverEmptiesAfterData | frontend/src/components/MetricsChart.js:19-43 | once points are shown, no later load (failure or empty response) returns the chart to no-data |
| PolicyComparison.Load | frontend/src/components/PolicyComparison.js:15-24 | a success replaces the policy table wholesale and a failure keeps it; `loading` is false after either |
| PolicyComparison.TotalAssignmentsCell | frontend/src/components/PolicyComparison.js:58 | a missing `total_assignments` displays 0; a present one displays its value (so 0 displays 0) |
| PolicyComparison.Render | frontend/src/components/PolicyComparison.js:26-62 | loading, then no-data for an empty table, else one row per policy in key order, highlighted iff the name is exactly `CUCB-OTA` |
| PolicyComparison.LoadAllShowsLastSuccess | frontend/src/components/PolicyComparison.js:7-24 | the spinner shows until the first load settles; afterwards the table is the last successfully fetched one, or the earlier one if all failed |
| PolicyComparison.HighlightOnlyCucbOta | frontend/src/components/PolicyComparison.js:52 | a row is highlighted iff its key is `CUCB-OTA`; at most one row is highlighted; a table without that key highlights no row |

## Left out

- `frontend/src/services/api.js`: an axios wrapper (base URL, verbs, projection of `res.data`). Network I/O; each call is a `Fetched` outcome parameter.
- `frontend/src/App.js`: a health check and config load gating the render. Network I/O and rendering, with no logic of its own to model.
- `frontend/src/components/SimulationControl.js`: presentation only. Its `min`/`max` input attributes are never enforced, so no batch-count or policy-name check is modelled.
- Timers (`setInterval` every 2, 5 and 10 seconds), the React effect lifecycle and interleavings between ticks. A run of settled outcomes is modelled in the order they settle (`LoadAll`). The code keeps no issuance counter, so there is no latest-issued-wins rule to model. `handleStartSimulation` and `handleStopSimulation` call `loadData()` without awaiting it, so the refresh settles after the handler returns and may interleave with interval polls; `Dashboard.HandleStart`/`HandleStop` give the state once that refresh has settled.
- The zustand `persist` middleware's storage writes and reads. Only `partialize` is modelled, plus the rehydrated state as the initial state with the record merged over it.
- `toFixed` formatting, colour hex strings (a three-value `Tier` instead), CSS, Recharts and JSX rendering, the `'N/A'` fallbacks of formatted cells.
- KpiCards.Colors: boundaries are the exact products 0.56, 9.6, 0.68 and 0.36. The code compares against IEEE products such as 0.7 * 0.8, which may differ in the last bit.
- MetricsChart.ToPoint: `parseFloat` parsing is not modelled; a field arrives already parsed (`Some(v)`) or as NaN (`None`).
- A null or undefined response body (a thrown `TypeError` caught like a failed fetch), and an `undefined` `agents`/`policies`/`assignments` payload passed to a setter (which would throw at render). Both are outside the typed model.
- Common.Lookup: `obj[key]` in JavaScript also finds names inherited from `Object.prototype` (`constructor`, `toString`, `__proto__`, ...); the model sees only the object's own entries, so such a channel name shows capacity 0 here, whereas React renders nothing for the function that `constructor` or `toString` yields and throws on the object `__proto__` yields. These are valid JSON keys but not channel names the backend sends.
- `Common.Obj` keeps the order it is given. JavaScript enumerates integer-like keys (such as `"1"`) first, in ascending order, before the others in insertion order. That reordering is not modelled, so for objects whose keys are all non-numeric names the two orders coincide. The capacity sum does not depend on order either way (`AgentGrid.SumValuesOrderFree`).
- Agent and assignment fields used only for formatting (`avg_csat`, `avg_aht`, `csat`, `aht`) are carried but not rendered.

=== FILE: agent_grid.dfy ===
/** The agent grid: the 20-agent window, each agent's total capacity,
    utilisation with its zero-capacity guard, the capped load-bar width and
    the per-channel load/capacity pairs. */
module AgentGrid {
  import opened Common
  import opened Entities
  import opened Windows

  /** How many agent cards the grid shows at most. */
  const CardLimit: nat := 20

  /** The sum of an object's values, in `Object.values` order. */
  function SumValues(entries: seq<(string, real)>): (total: real)
    ensures |entries| == 0 ==> total == 0.0
    ensures |entries| == 1 ==> total == entries[0].1
    ensures (forall i :: 0 <= i < |entries| ==> entries[i].1 >= 0.0) ==> total >= 0.0
    decreases |entries|
  {
    if |entries| == 0 then 0.0 else SumValues(entries[..|entries| - 1]) + entries[|entries| - 1].1
  }

  /** `Object.values(agent.capacity || {}).reduce((a, b) => a + b, 0)`: a
      missing capacity object counts as `{}`. */
  function TotalCapacity(agent: Agent): (total: real)
    ensures agent.capacity.None? ==> total == 0.0
    ensures agent.capacity.Some? ==> total == SumValues(agent.capacity.value)
    ensures agent.capacity.Some? && |agent.capacity.value| == 0 ==> total == 0.0
    ensures (agent.capacity.Some? ==>
              forall i :: 0 <= i < |agent.capacity.value| ==> agent.capacity.value[i].1 >= 0.0)
            ==> total >= 0.0
  {
    SumValues(agent.capacity.GetOr([]))
  }

  /** `(current_load / totalCapacity) * 100`, or 0 when the total is not
      positive: never a division by zero. */
  function Utilization(currentLoad: real, totalCapacity: real): (u: real)
    ensures totalCapacity <= 0.0 ==> u == 0.0
    ensures totalCapacity > 0.0 ==> u * totalCapacity == currentLoad * 100.0
  {
    if totalCapacity > 0.0 then (currentLoad / totalCapacity) * 100.0 else 0.0
  }

  /** `Math.min(utilization, 100)`: the load bar's width in percent. */
  function BarWidth(utilization: real): (w: real)
    ensures w <= 100.0
    ensures w == utilization || w == 100.0
    ensures w == utilization <==> utilization <= 100.0
  {
    if utilization <= 100.0 then utilization else 100.0
  }

  /** `agent.capacity?.[channel] || 0`: a channel missing from the capacity
      object (or a missing object) shows capacity 0. */
  function ChannelCapacity(agent: Agent, channel: string): (c: real)
    ensures agent.capacity.None? ==> c == 0.0
    ensures agent.capacity.Some? && Lookup(agent.capacity.value, channel).None? ==> c == 0.0
    ensures agent.capacity.Some? && Lookup(agent.capacity.value, channel).Some? ==>
      c == Lookup(agent.capacity.value, channel).value
  {
    match agent.capacity
    case None => 0.0
    case Some(obj) => Lookup(obj, channel).GetOr(0.0)
  }

  /** One channel row: its name, its load and its capacity. */
  datatype ChannelRow = ChannelRow(channel: string, load: real, capacity: real)

  /** One card as displayed. */
  datatype Card = Card(
    agentId: string,
    status: AgentStatus,
    currentLoad: real,
    totalCapacity: real,
    barWidth: real,
    channels: seq<ChannelRow>)

  datatype View = NoAgents | Cards(cards: seq<Card>)

  /** The `channel_loads || {}` rows: one per channel, in order, each with
      its load and the capacity the card shows for it. */
  function ChannelRows(agent: Agent): (rows: seq<ChannelRow>)
    ensures |rows| == |agent.channelLoads.GetOr([])|
    ensures forall i :: 0 <= i < |rows| ==>
      && rows[i].channel == agent.channelLoads.GetOr([])[i].0
      && rows[i].load == agent.channelLoads.GetOr([])[i].1
    ensures forall i :: 0 <= i < |rows| && agent.capacity.None? ==> rows[i].capacity == 0.0
    ensures forall i :: 0 <= i < |rows| && agent.capacity.Some? ==>
      rows[i].capacity == Lookup(agent.capacity.value, rows[i].channel).GetOr(0.0)
  {
    var loads := agent.channelLoads.GetOr([]);
    seq(|loads|, i requires 0 <= i < |loads| =>
      ChannelRow(loads[i].0, loads[i].1, ChannelCapacity(agent, loads[i].0)))
  }

  /** One agent card (`agents.slice(0, 20).map(...)` body): the agent's id,
      status and load, its total capacity, a load bar never wider than 100
      and empty without capacity, full exactly when the load reaches the
      capacity and otherwise `load / total * 100` wide, and one row per
      channel load. */
  function CardOf(agent: Agent): (c: Card)
    ensures c.agentId == agent.agentId && c.status == agent.status
    ensures c.currentLoad == agent.currentLoad
    ensures c.totalCapacity == TotalCapacity(agent)
    ensures c.barWidth <= 100.0
    ensures c.totalCapacity <= 0.0 ==> c.barWidth == 0.0
    ensures c.totalCapacity > 0.0 ==> (c.barWidth == 100.0 <==> agent.currentLoad >= c.totalCapacity)
    ensures c.totalCapacity > 0.0 && agent.currentLoad < c.totalCapacity ==>
      c.barWidth * c.totalCapacity == agent.currentLoad * 100.0
    ensures c.totalCapacity > 0.0 && agent.currentLoad >= 0.0 ==> c.barWidth >= 0.0
    ensures c.channels == ChannelRows(agent)
  {
    var total := TotalCapacity(agent);
    BarFacts(agent.currentLoad, total);
    Card(agent.agentId, agent.status, agent.currentLoad, total,
         BarWidth(Utilization(agent.currentLoad, total)), ChannelRows(agent))
  }

  /** The whole grid: the no-data branch for a missing or empty list,
      otherwise one card for each of the first `min(20, n)` agents, in order. */
  function Render(agents: Option<seq<Agent>>): (v: View)
    ensures v.NoAgents? <==> agents.None? || |agents.value| == 0
    ensures v.Cards? ==> |v.cards| == Min(CardLimit, |agents.value|) && |v.cards| <= CardLimit
    ensures v.Cards? ==> forall i :: 0 <= i < |v.cards| ==> v.cards[i] == CardOf(agents.value[i])
  {
    match agents
    case None => NoAgents
    case Some(xs) =>
      if |xs| == 0 then NoAgents
      else
        SlicePrefixIsFirst(xs, CardLimit);
        var shown := Slice(xs, 0, Some(CardLimit));
        Cards(seq(|shown|, i requires 0 <= i < |shown| => CardOf(shown[i])))
  }

  // ---------------------------------------------------------------------
  // Properties

  /** Non-negative capacities add up to a non-negative total, at least as
      large as any single channel's capacity. */
  lemma {:induction false} SumValuesBounds(obj: seq<(string, real)>)
    requires forall i :: 0 <= i < |obj| ==> obj[i].1 >= 0.0
    ensures SumValues(obj) >= 0.0
    ensures forall i :: 0 <= i < |obj| ==> obj[i].1 <= SumValues(obj)
    decreases |obj|
  {
    if |obj| > 0 {
      var init := obj[..|obj| - 1];
      SumValuesBounds(init);
      assert forall i :: 0 <= i < |init| ==> init[i] == obj[i];
    }
  }

  /** With non-negative capacities, a channel's displayed capacity never
      exceeds the agent's total capacity. */
  lemma ChannelCapacityWithinTotal(agent: Agent, channel: string)
    requires agent.capacity.Some? ==>
      forall i :: 0 <= i < |agent.capacity.value| ==> agent.capacity.value[i].1 >= 0.0
    ensures 0.0 <= ChannelCapacity(agent, channel) <= TotalCapacity(agent)
  {
    if agent.capacity.Some? {
      SumValuesBounds(agent.capacity.value);
    }
  }

  /** With a positive total, the bar is full exactly when the load has
      reached the capacity, and a non-negative load gives a width in
      [0, 100]. */
  lemma BarFullIffAtCapacity(currentLoad: real, totalCapacity: real)
    requires totalCapacity > 0.0
    ensures BarWidth(Utilization(currentLoad, totalCapacity)) == 100.0 <==> currentLoad >= totalCapacity
    ensures currentLoad >= 0.0 ==> 0.0 <= BarWidth(Utilization(currentLoad, totalCapacity)) <= 100.0
  {
    var u := Utilization(currentLoad, totalCapacity);
    assert u * totalCapacity == currentLoad * 100.0;
    if u >= 100.0 {
      assert u * totalCapacity >= 100.0 * totalCapacity;
    } else {
      assert u * totalCapacity < 100.0 * totalCapacity;
    }
  }

  /** `BarFullIffAtCapacity` for any total, guarded by its condition. */
  lemma BarFacts(currentLoad: real, totalCapacity: real)
    ensures totalCapacity > 0.0 ==>
      (BarWidth(Utilization(currentLoad, totalCapacity)) == 100.0 <==> currentLoad >= totalCapacity)
    ensures totalCapacity > 0.0 && currentLoad >= 0.0 ==>
      BarWidth(Utilization(currentLoad, totalCapacity)) >= 0.0
  {
    if totalCapacity > 0.0 {
      BarFullIffAtCapacity(currentLoad, totalCapacity);
    }
  }

  /** An agent whose capacities add to zero or less (in particular one with
      no capacity object) shows utilisation 0 and an empty bar, whatever
      its load. */
  lemma NoCapacityEmptyBar(agent: Agent)
    ensures TotalCapacity(agent) <= 0.0 ==> CardOf(agent).barWidth == 0.0
  {
  }

  /** With non-negative capacities every channel row shows a capacity
      between 0 and the agent's total capacity; a channel that is not a key
      of the capacity object shows 0. */
  lemma ChannelRowsWithinTotal(agent: Agent)
    requires agent.capacity.Some? ==>
      forall i :: 0 <= i < |agent.capacity.value| ==> agent.capacity.value[i].1 >= 0.0
    ensures forall i :: 0 <= i < |ChannelRows(agent)| ==>
      0.0 <= ChannelRows(agent)[i].capacity <= TotalCapacity(agent)
    ensures forall i :: 0 <= i < |ChannelRows(agent)| ==>
      (agent.capacity.None? || Lookup(agent.capacity.value, ChannelRows(agent)[i].channel).None?)
      ==> ChannelRows(agent)[i].capacity == 0.0
  {
    var rows := ChannelRows(agent);
    forall i | 0 <= i < |rows|
      ensures 0.0 <= rows[i].capacity <= TotalCapacity(agent)
    {
      ChannelCapacityWithinTotal(agent, rows[i].channel);
    }
  }

  /** The sum of two runs of entries is the sum of their sums. */
  lemma {:induction false} SumValuesAppend(a: seq<(string, real)>, b: seq<(string, real)>)
    ensures SumValues(a + b) == SumValues(a) + SumValues(b)
    decreases |b|
  {
    if |b| > 0 {
      var b' := b[..|b| - 1];
      assert (a + b)[..|a + b| - 1] == a + b';
      SumValuesAppend(a, b');
    } else {
      assert a + b == a;
    }
  }

  /** The total capacity does not depend on the order the values are
      enumerated in: any reordering of the entries gives the same sum. */
  lemma {:induction false} SumValuesOrderFree(a: seq<(string, real)>, b: seq<(string, real)>)
    requires multiset(a) == multiset(b)
    ensures SumValues(a) == SumValues(b)
    decreases |a|
  {
    if |a| == 0 {
      assert |b| == |multiset(b)| == 0;
    } else {
      var x := a[|a| - 1];
      var a' := a[..|a| - 1];
      assert a == a' + [x];
      assert x in multiset(b);
      var j :| 0 <= j < |b| && b[j] == x;
      var pre, post := b[..j], b[j + 1..];
      assert b == pre + [x] + post;
      calc {
        multiset(a') + multiset{x};
        multiset(a);
        multiset(b);
        multiset(pre) + multiset{x} + multiset(post);
        multiset(pre + post) + multiset{x};
      }
      assert multiset(a') == multiset(a') + multiset{x} - multiset{x};
      assert multiset(a') == multiset(pre + post);
      SumValuesOrderFree(a', pre + post);
      SumValuesAppend(pre, [x]);
      SumValuesAppend(pre + [x], post);
      SumValuesAppend(pre, post);
      assert [x][..0] == [];
    }
  }
}

=== FILE: common.dfy ===
/** Small shared vocabulary: optional values, fetch outcomes and JavaScript
    plain objects seen as ordered key/value entries. */
module Common {

  /** A value that may be `null`/`undefined` (or, for a parsed number, NaN). */
  datatype Option<+T> = None | Some(value: T) {

    /** The value, or `default` when absent; the model of `x || default`
        for values whose falsy cases coincide with absence. */
    function GetOr(default: T): T {
      match this
      case Some(v) => v
      case None => default
    }
  }

  /** The settled outcome of one awaited network call: it resolved with a
      payload, or it rejected (any transport, HTTP or decoding error). */
  datatype Fetched<+T> = Success(value: T) | Failure

  /** No key occurs twice among the entries. */
  predicate DistinctKeys<V>(entries: seq<(string, V)>) {
    forall i, j :: 0 <= i < j < |entries| ==> entries[i].0 != entries[j].0
  }

  /** A JavaScript plain object (as `JSON.parse` builds it): its own
      enumerable entries, each key at most once, in the order `Object.keys`
      visits them. */
  type Obj<V> = entries: seq<(string, V)> | DistinctKeys(entries)

  function Min(a: int, b: int): int {
    if a <= b then a else b
  }

  /** `obj[key]`: the value stored under `key`, or None when the object has
      no such key. Keys are distinct, so the value is the one entry's. */
  function Lookup<V>(obj: Obj<V>, key: string): (r: Option<V>)
    ensures r.None? <==> forall i :: 0 <= i < |obj| ==> obj[i].0 != key
    ensures forall i :: 0 <= i < |obj| && obj[i].0 == key ==> r == Some(obj[i].1)
  {
    if |obj| == 0 then None
    else if obj[0].0 == key then Some(obj[0].1)
    else
      var rest: Obj<V> := obj[1..];
      assert forall i :: 0 <= i < |rest| ==> rest[i] == obj[i + 1];
      Lookup(rest, key)
  }

  /** `Object.keys(obj)`: the entries' names in enumeration order, no name
      twice. */
  function Keys<V>(obj: Obj<V>): (ks: seq<string>)
    ensures |ks| == |obj|
    ensures forall i :: 0 <= i < |ks| ==> ks[i] == obj[i].0
    ensures forall i, j :: 0 <= i < j < |ks| ==> ks[i] != ks[j]
  {
    seq(|obj|, i requires 0 <= i < |obj| => obj[i].0)
  }

  /** `Object.keys` lists exactly the names `obj[key]` finds. */
  lemma KeysAreLookupKeys<V>(obj: Obj<V>, k: string)
    ensures k in Keys(obj) <==> Lookup(obj, k).Some?
  {
  }
}

=== FILE: dashboard.dfy ===
/** The dashboard's local state and its reconciliation rules: the
    initial state, the four-way poll applied all-or-nothing, the outcome
    handling of the start and stop commands, and the recent-assignments
    window. */
module Dashboard {
  import opened Common
  import opened Entities
  import opened Windows
  import AgentGrid

  /** How many assignment rows the table shows at most. */
  const RowLimit: nat := 10

  datatype State = State(
    metrics: Metrics,
    agents: seq<Agent>,
    assignments: seq<Assignment>,
    status: SimulationStatus)

  /** The state the dashboard mounts with: zeroed metrics (without a
      `total_assignments` field), no agents, no assignments, not running. */
  const Initial := State(
    Metrics(0.0, 0.0, 0.0, 0.0, 0.0, None),
    [],
    [],
    SimulationStatus(false, None, None))

  /** The settled outcomes of the four concurrent fetches of one poll. */
  datatype Poll = Poll(
    metrics: Fetched<Metrics>,
    agents: Fetched<seq<Agent>>,
    assignments: Fetched<seq<Assignment>>,
    status: Fetched<SimulationStatus>)

  predicate AllSucceeded(p: Poll) {
    p.metrics.Success? && p.agents.Success? && p.assignments.Success? && p.status.Success?
  }

  /** `loadData`: `Promise.all` rejects as soon as any of the four fetches
      does, so either all four fields are replaced or none is. */
  function LoadData(s: State, p: Poll): (r: State)
    ensures AllSucceeded(p) ==>
      && r.metrics == p.metrics.value
      && r.agents == p.agents.value
      && r.assignments == p.assignments.value
      && r.status == p.status.value
    ensures !AllSucceeded(p) ==> r == s
  {
    match (p.metrics, p.agents, p.assignments, p.status)
    case (Success(m), Success(a), Success(xs), Success(st)) => State(m, a, xs, st)
    case _ => s
  }

  /** What a command handler leads to: the new state, how many refreshes it
      started and whether it raised an alert. */
  datatype Reaction = Reaction(state: State, refreshes: nat, alerted: bool)

  /** `handleStartSimulation`: a successful start triggers one refresh (whose
      poll outcome is `refresh`); a failed start alerts and refreshes
      nothing. A failing refresh is swallowed by `loadData` and never alerts. */
  function HandleStart(s: State, started: Fetched<()>, refresh: Poll): (r: Reaction)
    ensures started.Success? ==> r.refreshes == 1 && !r.alerted && r.state == LoadData(s, refresh)
    ensures started.Failure? ==> r.refreshes == 0 && r.alerted && r.state == s
  {
    match started
    case Success(_) => Reaction(LoadData(s, refresh), 1, false)
    case Failure => Reaction(s, 0, true)
  }

  /** `handleStopSimulation`: a successful stop triggers one refresh; a
      failed stop is only logged: no alert, no refresh. */
  function HandleStop(s: State, stopped: Fetched<()>, refresh: Poll): (r: Reaction)
    ensures stopped.Success? ==> r.refreshes == 1 && !r.alerted && r.state == LoadData(s, refresh)
    ensures stopped.Failure? ==> r.refreshes == 0 && !r.alerted && r.state == s
  {
    match stopped
    case Success(_) => Reaction(LoadData(s, refresh), 1, false)
    case Failure => Reaction(s, 0, false)
  }

  /** `assignments.slice(-10).reverse()`. */
  function RecentAssignments(xs: seq<Assignment>): (rows: seq<Assignment>)
    ensures |rows| == Min(RowLimit, |xs|) && |rows| <= RowLimit
    ensures forall i :: 0 <= i < |rows| ==> rows[i] == xs[|xs| - 1 - i]
    ensures |xs| > 0 ==> rows[0] == xs[|xs| - 1]
  {
    var recent := Slice(xs, -(RowLimit as int), None);
    SliceNegativeIsLast(xs, RowLimit);
    var last := Last(xs, RowLimit);
    assert recent == last;
    Reverse(last)
  }

  /** The customer cell: the customer id when it is a non-empty string,
      otherwise the placeholder `C<row index>`. */
  datatype CustomerCell = CustomerId(id: string) | Placeholder(row: nat)

  function CustomerCellOf(a: Assignment, row: nat): (c: CustomerCell)
    ensures c.CustomerId? <==> a.customerId.Some? && a.customerId.value != ""
    ensures c.CustomerId? ==> c.id == a.customerId.value
    ensures c.Placeholder? ==> c.row == row
  {
    match a.customerId
    case Some(id) => if id != "" then CustomerId(id) else Placeholder(row)
    case None => Placeholder(row)
  }

  datatype AssignmentRow = AssignmentRow(customer: CustomerCell, agentId: string, channel: string, slaMet: bool)

  datatype AssignmentTable = NoAssignments | Rows(rows: seq<AssignmentRow>)

  /** The assignments section: the no-data message for an empty list,
      otherwise one row per recent assignment, newest first. */
  function RenderAssignments(xs: seq<Assignment>): (t: AssignmentTable)
    ensures t.NoAssignments? <==> |xs| == 0
    ensures t.Rows? ==> |t.rows| == Min(RowLimit, |xs|)
    ensures t.Rows? ==> forall i :: 0 <= i < |t.rows| ==>
      t.rows[i] == AssignmentRow(CustomerCellOf(xs[|xs| - 1 - i], i), xs[|xs| - 1 - i].agentId,
                                 xs[|xs| - 1 - i].channel, xs[|xs| - 1 - i].slaMet)
  {
    if |xs| == 0 then NoAssignments
    else
      var recent := RecentAssignments(xs);
      Rows(seq(|recent|, i requires 0 <= i < |recent| =>
        AssignmentRow(CustomerCellOf(recent[i], i), recent[i].agentId, recent[i].channel, recent[i].slaMet)))
  }

  /** The poll outcomes, applied in the order they settle. */
  function LoadAll(s: State, polls: seq<Poll>): State
    decreases |polls|
  {
    if |polls| == 0 then s else LoadData(LoadAll(s, polls[..|polls| - 1]), polls[|polls| - 1])
  }

  /** The index of the last poll in which all four fetches succeeded. */
  function LastComplete(polls: seq<Poll>): (r: Option<nat>)
    ensures r.Some? ==> r.value < |polls| && AllSucceeded(polls[r.value])
    ensures r.Some? ==> forall j :: r.value < j < |polls| ==> !AllSucceeded(polls[j])
    ensures r.None? ==> forall j :: 0 <= j < |polls| ==> !AllSucceeded(polls[j])
    decreases |polls|
  {
    if |polls| == 0 then None
    else if AllSucceeded(polls[|polls| - 1]) then Some(|polls| - 1)
    else LastComplete(polls[..|polls| - 1])
  }

  // ---------------------------------------------------------------------
  // Properties

  /** After any run of polls the dashboard shows exactly the last complete
      poll, or whatever it showed before when no poll was complete; a
      failing poll never leaves a half-applied state. */
  lemma {:induction false} LoadAllShowsLastComplete(s: State, polls: seq<Poll>)
    ensures LastComplete(polls).None? ==> LoadAll(s, polls) == s
    ensures LastComplete(polls).Some? ==>
      LoadAll(s, polls) == LoadData(s, polls[LastComplete(polls).value])
    decreases |polls|
  {
    if |polls| > 0 {
      var init := polls[..|polls| - 1];
      LoadAllShowsLastComplete(s, init);
      if !AllSucceeded(polls[|polls| - 1]) {
        assert LastComplete(polls) == LastComplete(init);
        if LastComplete(init).Some? {
          assert polls[LastComplete(init).value] == init[LastComplete(init).value];
        }
      }
    }
  }

  /** A complete poll overwrites everything the dashboard holds: the state
      after it does not depend on the state before, so applying it twice is
      applying it once. */
  lemma CompletePollForgetsPriorState(s: State, t: State, p: Poll)
    requires AllSucceeded(p)
    ensures LoadData(s, p) == LoadData(t, p)
    ensures LoadData(LoadData(s, p), p) == LoadData(s, p)
  {
  }

  /** The mounted dashboard shows not running, no agent cards, the
      no-assignments message and zero metrics. */
  lemma InitialShowsNoData()
    ensures !Initial.status.isRunning
    ensures AgentGrid.Render(Some(Initial.agents)).NoAgents?
    ensures RenderAssignments(Initial.assignments).NoAssignments?
    ensures Initial.metrics.csat == 0.0 && Initial.metrics.aht == 0.0
    ensures Initial.metrics.slaMetRate == 0.0 && Initial.metrics.gini == 0.0
    ensures Initial.metrics.throughput == 0.0
  {
  }

  /** Start and stop agree on success; on failure only start alerts, and
      neither touches the state. */
  lemma StartStopDifferOnlyInAlert(s: State, outcome: Fetched<()>, refresh: Poll)
    ensures HandleStart(s, outcome, refresh).state == HandleStop(s, outcome, refresh).state
    ensures HandleStart(s, outcome, refresh).refreshes == HandleStop(s, outcome, refresh).refreshes
    ensures HandleStart(s, outcome, refresh).alerted != HandleStop(s, outcome, refresh).alerted
      <==> outcome.Failure?
  {
  }
}

=== FILE: entities.dfy ===
/** The records the console receives from the backend and keeps in its
    view state. JavaScript numbers are `real`s; a field the code reads with
    optional chaining, or that one of the initial states leaves out, is an
    `Option`. */
module Entities {
  import opened Common

  /** The aggregate performance snapshot (`/metrics/current`). The store's
      initial value carries `total_assignments`; the dashboard's does not. */
  datatype Metrics = Metrics(
    csat: real,
    aht: real,
    slaMetRate: real,
    gini: real,
    throughput: real,
    totalAssignments: Option<real>)

  datatype AgentStatus = Available | Busy | Offline

  /** One agent. `capacity` and `channel_loads` are per-channel objects that
      may be missing; the grid falls back to `{}` for both. */
  datatype Agent = Agent(
    agentId: string,
    name: string,
    currentLoad: real,
    capacity: Option<Obj<real>>,
    channelLoads: Option<Obj<real>>,
    status: AgentStatus,
    avgCsat: Option<real>,
    avgAht: Option<real>)

  /** One routing decision. A missing `sla_met` reads as false. */
  datatype Assignment = Assignment(
    customerId: Option<string>,
    agentId: string,
    channel: string,
    csat: Option<real>,
    aht: Option<real>,
    slaMet: bool,
    assignedAt: string)

  /** `/simulation/status`. The dashboard starts from `{ is_running: false }`
      alone, so the two counters are optional. */
  datatype SimulationStatus = SimulationStatus(
    isRunning: bool,
    currentBatch: Option<real>,
    elapsedTime: Option<real>)

  /** The constraint solver's shadow prices. */
  datatype DualVariables = DualVariables(
    lambdaAht: real,
    lambdaSla: real,
    lambdaFairness: real)
}

=== FILE: kpi_cards.dfy ===
/** The KPI cards: a three-tier colour per metric from a threshold and a
    direction (`getStatusColor`), and the four metric bindings. */
module KpiCards {
  import opened Entities

  /** The three colours a card's value can take (green, amber, red). */
  datatype Tier = Red | Amber | Green

  /** Red < Amber < Green. */
  function Rank(t: Tier): nat {
    match t
    case Red => 0
    case Amber => 1
    case Green => 2
  }

  /** `getStatusColor(value, threshold, kind)`. Only the string `"higher"`
      selects the higher-is-better rule; every other kind falls through to
      lower-is-better. The source's default kind `'higher'` is not modelled
      as a default: all four call sites pass the kind explicitly. */
  function StatusColor(value: real, threshold: real, kind: string): (t: Tier)
    ensures kind == "higher" ==>
      && (t == Green <==> value >= threshold)
      && (t == Amber <==> value < threshold && value >= threshold * 0.8)
      && (t == Red <==> value < threshold && value < threshold * 0.8)
    ensures kind != "higher" ==>
      && (t == Green <==> value <= threshold)
      && (t == Amber <==> threshold < value <= threshold * 1.2)
      && (t == Red <==> value > threshold && value > threshold * 1.2)
  {
    if kind == "higher" then
      if value >= threshold then Green
      else if value >= threshold * 0.8 then Amber
      else Red
    else
      if value <= threshold then Green
      else if value <= threshold * 1.2 then Amber
      else Red
  }

  /** For higher-is-better, raising the value never lowers the tier; for
      any other kind, lowering it never does. This holds for every
      threshold, including negative ones (where amber cannot occur). */
  lemma StatusColorMonotone(v1: real, v2: real, threshold: real, kind: string)
    requires v1 <= v2
    ensures kind == "higher" ==>
      Rank(StatusColor(v1, threshold, kind)) <= Rank(StatusColor(v2, threshold, kind))
    ensures kind != "higher" ==>
      Rank(StatusColor(v2, threshold, kind)) <= Rank(StatusColor(v1, threshold, kind))
  {
  }

  /** The colour of each of the four cards. */
  datatype CardColors = CardColors(csat: Tier, aht: Tier, sla: Tier, gini: Tier)

  /** The four bindings: CSAT at 0.7 higher-is-better, handle time at 8.0
      minutes lower-is-better, SLA met rate at 0.85 higher-is-better, Gini at
      0.3 lower-is-better. */
  function Colors(m: Metrics): (c: CardColors)
    ensures c.csat == Green <==> m.csat >= 0.7
    ensures c.csat == Amber <==> 0.56 <= m.csat < 0.7
    ensures c.aht == Green <==> m.aht <= 8.0
    ensures c.aht == Amber <==> 8.0 < m.aht <= 9.6
    ensures c.sla == Green <==> m.slaMetRate >= 0.85
    ensures c.sla == Amber <==> 0.68 <= m.slaMetRate < 0.85
    ensures c.gini == Green <==> m.gini <= 0.3
    ensures c.gini == Amber <==> 0.3 < m.gini <= 0.36
  {
    CardColors(
      StatusColor(m.csat, 0.7, "higher"),
      StatusColor(m.aht, 8.0, "lower"),
      StatusColor(m.slaMetRate, 0.85, "higher"),
      StatusColor(m.gini, 0.3, "lower"))
  }

  /** Metrics that are all zero (the initial state) show CSAT and SLA red
      and handle time and Gini green. */
  lemma ZeroMetricsColors(m: Metrics)
    requires m.csat == 0.0 && m.aht == 0.0 && m.slaMetRate == 0.0 && m.gini == 0.0
    ensures Colors(m) == CardColors(Red, Green, Red, Green)
  {
  }
}

=== FILE: metrics_chart.dfy ===
/** The metrics trend chart: its local state, the history poll applied to
    it (last 50 points, each field coerced to a number with 0 as the
    fallback, SLA as a percentage), and what it renders. */
module MetricsChart {
  import opened Common
  import opened Windows

  /** How many points the chart keeps at most. */
  const PointLimit: nat := 50

  /** One entry of the `/metrics/historical` response. A numeric field is
      `Some(v)` when `parseFloat` yields the number v and None when it yields
      NaN (missing or non-numeric). `batch_id` is passed through as is. */
  datatype RawPoint = RawPoint(
    batchId: Option<int>,
    avgCsat: Option<real>,
    avgAht: Option<real>,
    slaMetRate: Option<real>,
    giniCoefficient: Option<real>)

  /** The response body; `data` may be missing. */
  datatype Response = Response(data: Option<seq<RawPoint>>)

  datatype Point = Point(batch: Option<int>, csat: real, aht: real, sla: real, gini: real)

  datatype State = State(data: seq<Point>, loading: bool)

  const Initial := State([], true)

  /** `parseFloat(x) || 0`: the parsed number, or 0 for NaN (a parsed 0
      gives 0 either way). */
  function Coerce(parsed: Option<real>): real {
    parsed.GetOr(0.0)
  }

  /** The point one response entry becomes. */
  function ToPoint(d: RawPoint): (p: Point)
    ensures p.batch == d.batchId
    ensures d.avgCsat.Some? ==> p.csat == d.avgCsat.value
    ensures d.avgCsat.None? ==> p.csat == 0.0
    ensures d.avgAht.Some? ==> p.aht == d.avgAht.value
    ensures d.avgAht.None? ==> p.aht == 0.0
    ensures d.slaMetRate.Some? ==> p.sla == d.slaMetRate.value * 100.0
    ensures d.slaMetRate.None? ==> p.sla == 0.0
    ensures d.giniCoefficient.Some? ==> p.gini == d.giniCoefficient.value
    ensures d.giniCoefficient.None? ==> p.gini == 0.0
  {
    Point(d.batchId, Coerce(d.avgCsat), Coerce(d.avgAht),
          Coerce(d.slaMetRate) * 100.0, Coerce(d.giniCoefficient))
  }

  /** `response.data.slice(-50).map(...)`. */
  function Window(ds: seq<RawPoint>): (ps: seq<Point>)
    ensures |ps| == Min(PointLimit, |ds|) && |ps| <= PointLimit
    ensures forall i :: 0 <= i < |ps| ==> ps[i] == ToPoint(ds[|ds| - |ps| + i])
  {
    SliceNegativeIsLast(ds, PointLimit);
    var recent := Slice(ds, -(PointLimit as int), None);
    seq(|recent|, i requires 0 <= i < |recent| => ToPoint(recent[i]))
  }

  /** A response the chart takes: one with a non-empty `data` array. */
  predicate Usable(outcome: Fetched<Response>) {
    outcome.Success? && outcome.value.data.Some? && |outcome.value.data.value| > 0
  }

  /** `loadData`: replace the points only for a usable response; in every
      case (success, empty or missing data, failure) clear `loading`. */
  function Load(s: State, outcome: Fetched<Response>): (r: State)
    ensures !r.loading
    ensures Usable(outcome) ==> r.data == Window(outcome.value.data.value)
    ensures !Usable(outcome) ==> r.data == s.data
  {
    match outcome
    case Success(resp) =>
      if resp.data.Some? && |resp.data.value| > 0 then State(Window(resp.data.value), false)
      else s.(loading := false)
    case Failure => s.(loading := false)
  }

  datatype View = Loading | NoData | Chart(points: seq<Point>)

  function Render(s: State): (v: View)
    ensures v.Loading? <==> s.loading
    ensures v.NoData? <==> !s.loading && |s.data| == 0
    ensures v.Chart? ==> v.points == s.data && 0 < |v.points|
  {
    if s.loading then Loading
    else if |s.data| == 0 then NoData
    else Chart(s.data)
  }

  /** The outcomes of successive loads, applied in the order they settle. */
  function LoadAll(s: State, outcomes: seq<Fetched<Response>>): State
    decreases |outcomes|
  {
    if |outcomes| == 0 then s else Load(LoadAll(s, outcomes[..|outcomes| - 1]), outcomes[|outcomes| - 1])
  }

  /** The index of the last usable outcome. */
  function LastUsable(outcomes: seq<Fetched<Response>>): (r: Option<nat>)
    ensures r.Some? ==> r.value < |outcomes| && Usable(outcomes[r.value])
    ensures r.Some? ==> forall j :: r.value < j < |outcomes| ==> !Usable(outcomes[j])
    ensures r.None? ==> forall j :: 0 <= j < |outcomes| ==> !Usable(outcomes[j])
    decreases |outcomes|
  {
    if |outcomes| == 0 then None
    else if Usable(outcomes[|outcomes| - 1]) then Some(|outcomes| - 1)
    else LastUsable(outcomes[..|outcomes| - 1])
  }

  // ---------------------------------------------------------------------
  // Properties

  /** After one or more loads the chart is no longer loading, and it shows
      the window of the last usable response, or its earlier points when no
      response was usable. */
  lemma {:induction false} LoadAllShowsLastUsable(s: State, outcomes: seq<Fetched<Response>>)
    ensures |outcomes| > 0 ==> !LoadAll(s, outcomes).loading
    ensures Render(LoadAll(Initial, outcomes)).Loading? <==> |outcomes| == 0
    ensures LastUsable(outcomes).None? ==> LoadAll(s, outcomes).data == s.data
    ensures LastUsable(outcomes).Some? ==>
      LoadAll(s, outcomes).data == Window(outcomes[LastUsable(outcomes).value].value.data.value)
    decreases |outcomes|
  {
    if |outcomes| > 0 {
      var init := outcomes[..|outcomes| - 1];
      LoadAllShowsLastUsable(s, init);
      LoadAllShowsLastUsable(Initial, init);
      if !Usable(outcomes[|outcomes| - 1]) {
        assert LastUsable(outcomes) == LastUsable(init);
        if LastUsable(init).Some? {
          assert outcomes[LastUsable(init).value] == init[LastUsable(init).value];
        }
      }
    }
  }

  /** An SLA rate within [0, 1] (or an unparseable one) plots within
      [0, 100]. */
  lemma ToPointRanges(d: RawPoint)
    requires d.slaMetRate.Some? ==> 0.0 <= d.slaMetRate.value <= 1.0
    ensures 0.0 <= ToPoint(d).sla <= 100.0
  {
  }

  /** Once a usable response has arrived the chart never falls back to the
      no-data message: later failures and empty responses keep its points. */
  lemma ChartNeverEmptiesAfterData(s: State, outcome: Fetched<Response>)
    requires |s.data| > 0
    ensures Render(Load(s, outcome)).Chart?
  {
  }
}

=== FILE: policy_comparison.dfy ===
/** The policy comparison table: its local state, the comparison poll
    applied to it, and the rows it renders with the `CUCB-OTA` highlight. */
module PolicyComparison {
  import opened Common

  /** The policy whose row is highlighted. */
  const Highlighted: string := "CUCB-OTA"

  /** One policy's aggregates, each possibly missing. */
  datatype PolicyStats = PolicyStats(
    avgCsat: Option<real>,
    avgAht: Option<real>,
    slaMetRate: Option<real>,
    gini: Option<real>,
    totalAssignments: Option<real>)

  datatype State = State(policies: Obj<PolicyStats>, loading: bool)

  const Initial := State([], true)

  /** `loadComparison`: a successful fetch replaces the whole table, a
      failed one keeps it; both clear `loading`. */
  function Load(s: State, outcome: Fetched<Obj<PolicyStats>>): (r: State)
    ensures !r.loading
    ensures outcome.Success? ==> r.policies == outcome.value
    ensures outcome.Failure? ==> r.policies == s.policies
  {
    match outcome
    case Success(table) => State(table, false)
    case Failure => s.(loading := false)
  }

  /** `data.total_assignments || 0`. */
  function TotalAssignmentsCell(stats: PolicyStats): (n: real)
    ensures stats.totalAssignments.None? ==> n == 0.0
    ensures stats.totalAssignments.Some? ==> n == stats.totalAssignments.value
  {
    stats.totalAssignments.GetOr(0.0)
  }

  datatype Row = Row(policy: string, highlighted: bool, totalAssignments: real)

  datatype View = Loading | NoData | Table(rows: seq<Row>)

  /** The rendered component: loading, the no-data message for an empty
      table, or one row per policy in key order. */
  function Render(s: State): (v: View)
    ensures v.Loading? <==> s.loading
    ensures v.NoData? <==> !s.loading && |s.policies| == 0
    ensures v.Table? ==> |v.rows| == |s.policies|
    ensures v.Table? ==> forall i :: 0 <= i < |v.rows| ==>
      && v.rows[i].policy == s.policies[i].0
      && (v.rows[i].highlighted <==> s.policies[i].0 == "CUCB-OTA")
      && v.rows[i].totalAssignments == s.policies[i].1.totalAssignments.GetOr(0.0)
  {
    if s.loading then Loading
    else
      var names := Keys(s.policies);
      if |names| == 0 then NoData
      else Table(seq(|names|, i requires 0 <= i < |names| =>
        Row(names[i], names[i] == Highlighted, TotalAssignmentsCell(s.policies[i].1))))
  }

  /** Successive loads, applied in the order they settle. */
  function LoadAll(s: State, outcomes: seq<Fetched<Obj<PolicyStats>>>): State
    decreases |outcomes|
  {
    if |outcomes| == 0 then s else Load(LoadAll(s, outcomes[..|outcomes| - 1]), outcomes[|outcomes| - 1])
  }

  /** The index of the last successful outcome. */
  function LastSuccess<T>(outcomes: seq<Fetched<T>>): (r: Option<nat>)
    ensures r.Some? ==> r.value < |outcomes| && outcomes[r.value].Success?
    ensures r.Some? ==> forall j :: r.value < j < |outcomes| ==> outcomes[j].Failure?
    ensures r.None? ==> forall j :: 0 <= j < |outcomes| ==> outcomes[j].Failure?
    decreases |outcomes|
  {
    if |outcomes| == 0 then None
    else if outcomes[|outcomes| - 1].Success? then Some(|outcomes| - 1)
    else LastSuccess(outcomes[..|outcomes| - 1])
  }

  // ---------------------------------------------------------------------
  // Properties

  /** After one or more loads the table is no longer loading and holds the
      last successfully fetched table, or its earlier one if every fetch
      failed. */
  lemma {:induction false} LoadAllShowsLastSuccess(s: State, outcomes: seq<Fetched<Obj<PolicyStats>>>)
    ensures |outcomes| > 0 ==> !LoadAll(s, outcomes).loading
    ensures Render(LoadAll(Initial, outcomes)).Loading? <==> |outcomes| == 0
    ensures LastSuccess(outcomes).None? ==> LoadAll(s, outcomes).policies == s.policies
    ensures LastSuccess(outcomes).Some? ==>
      LoadAll(s, outcomes).policies == outcomes[LastSuccess(outcomes).value].value
    decreases |outcomes|
  {
    if |outcomes| > 0 {
      var init := outcomes[..|outcomes| - 1];
      LoadAllShowsLastSuccess(s, init);
      LoadAllShowsLastSuccess(Initial, init);
      if outcomes[|outcomes| - 1].Failure? {
        assert LastSuccess(outcomes) == LastSuccess(init);
        if LastSuccess(init).Some? {
          assert outcomes[LastSuccess(init).value] == init[LastSuccess(init).value];
        }
      }
    }
  }

  /** A row is highlighted exactly when its key is `CUCB-OTA`; since keys
      are distinct at most one row is highlighted, and a table without that
      key highlights none. */
  lemma HighlightOnlyCucbOta(s: State, k: nat)
    requires !s.loading && k < |s.policies|
    ensures Render(s).Table?
    ensures Render(s).rows[k].highlighted <==> s.policies[k].0 == Highlighted
    ensures Lookup(s.policies, Highlighted).None? ==>
      forall i :: 0 <= i < |Render(s).rows| ==> !Render(s).rows[i].highlighted
    ensures forall i, j :: 0 <= i < j < |Render(s).rows| ==>
      !(Render(s).rows[i].highlighted && Render(s).rows[j].highlighted)
  {
  }
}

=== FILE: store.dfy ===
/** The zustand view-state store (`useSimulatorStore`): one record of
    entities, one whole-value setter per entity, a history append that keeps
    the last 100 snapshots, `reset`, and the `partialize` projection that
    selects what is persisted. */
module SimulatorStore {
  import opened Common
  import opened Entities
  import opened Windows

  /** How many snapshots the history keeps. */
  const HistoryLimit: nat := 100

  datatype State = State(
    metrics: Metrics,
    historicalMetrics: seq<Metrics>,
    agents: seq<Agent>,
    selectedAgent: Option<Agent>,
    assignments: seq<Assignment>,
    simulationStatus: SimulationStatus,
    dualVariables: DualVariables)

  /** The fields of `State`, to say which one an action may touch. */
  datatype Field =
    | MetricsField
    | HistoryField
    | AgentsField
    | SelectedAgentField
    | AssignmentsField
    | StatusField
    | DualsField

  /** `s` and `t` agree on every field except possibly `f`. */
  predicate SameExcept(s: State, t: State, f: Field) {
    && (f != MetricsField ==> s.metrics == t.metrics)
    && (f != HistoryField ==> s.historicalMetrics == t.historicalMetrics)
    && (f != AgentsField ==> s.agents == t.agents)
    && (f != SelectedAgentField ==> s.selectedAgent == t.selectedAgent)
    && (f != AssignmentsField ==> s.assignments == t.assignments)
    && (f != StatusField ==> s.simulationStatus == t.simulationStatus)
    && (f != DualsField ==> s.dualVariables == t.dualVariables)
  }

  const ZeroMetrics := Metrics(0.0, 0.0, 0.0, 0.0, 0.0, Some(0.0))

  /** `initialState`. */
  const Initial := State(
    ZeroMetrics,
    [],
    [],
    None,
    [],
    SimulationStatus(false, Some(0.0), Some(0.0)),
    DualVariables(0.1, 0.1, 0.1))

  /** The store's invariant: the history never exceeds its limit. */
  predicate HistoryBounded(s: State) {
    |s.historicalMetrics| <= HistoryLimit
  }

  /** The new history of `addHistoricalMetric`: `[...h.slice(-99), metric]`. */
  function AppendBounded(h: seq<Metrics>, metric: Metrics): (r: seq<Metrics>)
    ensures |r| <= HistoryLimit
    ensures r == Last(h + [metric], HistoryLimit)
    ensures |h| < HistoryLimit ==> r == h + [metric]
    ensures r[|r| - 1] == metric
  {
    SliceNegativeIsLast(h, HistoryLimit - 1);
    LastAppend(h, metric, HistoryLimit - 1);
    ShortAppendKeepsAll(h, metric);
    Slice(h, -(HistoryLimit as int - 1), None) + [metric]
  }

  lemma ShortAppendKeepsAll(h: seq<Metrics>, metric: Metrics)
    ensures |h| < HistoryLimit ==> Last(h + [metric], HistoryLimit) == h + [metric]
  {
    if |h| < HistoryLimit {
      LastOfShort(h + [metric], HistoryLimit);
    }
  }

  function SetMetrics(s: State, metrics: Metrics): (r: State)
    ensures r.metrics == metrics && SameExcept(s, r, MetricsField)
  {
    s.(metrics := metrics)
  }

  function AddHistoricalMetric(s: State, metric: Metrics): (r: State)
    ensures HistoryBounded(r)
    ensures r.historicalMetrics == Last(s.historicalMetrics + [metric], HistoryLimit)
    ensures SameExcept(s, r, HistoryField)
  {
    s.(historicalMetrics := AppendBounded(s.historicalMetrics, metric))
  }

  function SetAgents(s: State, agents: seq<Agent>): (r: State)
    ensures r.agents == agents && SameExcept(s, r, AgentsField)
  {
    s.(agents := agents)
  }

  function SetSelectedAgent(s: State, agent: Option<Agent>): (r: State)
    ensures r.selectedAgent == agent && SameExcept(s, r, SelectedAgentField)
  {
    s.(selectedAgent := agent)
  }

  function SetAssignments(s: State, assignments: seq<Assignment>): (r: State)
    ensures r.assignments == assignments && SameExcept(s, r, AssignmentsField)
  {
    s.(assignments := assignments)
  }

  function SetSimulationStatus(s: State, status: SimulationStatus): (r: State)
    ensures r.simulationStatus == status && SameExcept(s, r, StatusField)
  {
    s.(simulationStatus := status)
  }

  function SetDualVariables(s: State, duals: DualVariables): (r: State)
    ensures r.dualVariables == duals && SameExcept(s, r, DualsField)
  {
    s.(dualVariables := duals)
  }

  /** `reset`: every field back to its initial value, whatever the state. */
  function Reset(s: State): (r: State)
    ensures r.metrics.csat == 0.0 && r.metrics.aht == 0.0 && r.metrics.slaMetRate == 0.0
    ensures r.metrics.gini == 0.0 && r.metrics.throughput == 0.0
    ensures r.metrics.totalAssignments == Some(0.0)
    ensures r.historicalMetrics == [] && r.agents == [] && r.assignments == []
    ensures r.selectedAgent.None?
    ensures !r.simulationStatus.isRunning
    ensures r.simulationStatus.currentBatch == Some(0.0)
    ensures r.simulationStatus.elapsedTime == Some(0.0)
    ensures r.dualVariables == DualVariables(0.1, 0.1, 0.1)
  {
    Initial
  }

  /** The store's actions, as a caller issues them. */
  datatype Action =
    | DoSetMetrics(metrics: Metrics)
    | DoAddHistoricalMetric(metric: Metrics)
    | DoSetAgents(agents: seq<Agent>)
    | DoSetSelectedAgent(agent: Option<Agent>)
    | DoSetAssignments(assignments: seq<Assignment>)
    | DoSetSimulationStatus(status: SimulationStatus)
    | DoSetDualVariables(duals: DualVariables)
    | DoReset

  /** The field an action other than `reset` writes. */
  function FieldOf(a: Action): Field
    requires !a.DoReset?
  {
    match a
    case DoSetMetrics(_) => MetricsField
    case DoAddHistoricalMetric(_) => HistoryField
    case DoSetAgents(_) => AgentsField
    case DoSetSelectedAgent(_) => SelectedAgentField
    case DoSetAssignments(_) => AssignmentsField
    case DoSetSimulationStatus(_) => StatusField
    case DoSetDualVariables(_) => DualsField
  }

  function Apply(s: State, a: Action): State {
    match a
    case DoSetMetrics(m) => SetMetrics(s, m)
    case DoAddHistoricalMetric(m) => AddHistoricalMetric(s, m)
    case DoSetAgents(xs) => SetAgents(s, xs)
    case DoSetSelectedAgent(x) => SetSelectedAgent(s, x)
    case DoSetAssignments(xs) => SetAssignments(s, xs)
    case DoSetSimulationStatus(st) => SetSimulationStatus(s, st)
    case DoSetDualVariables(d) => SetDualVariables(s, d)
    case DoReset => Reset(s)
  }

  /** The state after the actions run in order. */
  function ApplyAll(s: State, actions: seq<Action>): State
    decreases |actions|
  {
    if |actions| == 0 then s
    else Apply(ApplyAll(s, actions[..|actions| - 1]), actions[|actions| - 1])
  }

  /** The persisted record: exactly the history and the dual variables. */
  datatype Persisted = Persisted(historicalMetrics: seq<Metrics>, dualVariables: DualVariables)

  /** `partialize`. */
  function Partialize(s: State): (p: Persisted)
    ensures p.historicalMetrics == s.historicalMetrics
    ensures p.dualVariables == s.dualVariables
  {
    Persisted(s.historicalMetrics, s.dualVariables)
  }

  /** The state a restart starts from: the initial state with the persisted
      record shallow-merged over it. */
  function Rehydrate(p: Persisted): (r: State)
    ensures Partialize(r) == p
    ensures r.metrics == ZeroMetrics && r.agents == [] && r.assignments == []
    ensures r.selectedAgent.None?
    ensures r.simulationStatus == SimulationStatus(false, Some(0.0), Some(0.0))
  {
    Initial.(historicalMetrics := p.historicalMetrics, dualVariables := p.dualVariables)
  }

  // ---------------------------------------------------------------------
  // Properties

  /** Every action keeps the history bound, and an append restores it
      whatever the history was before. */
  lemma ApplyKeepsHistoryBounded(s: State, a: Action)
    requires HistoryBounded(s) || a.DoAddHistoricalMetric? || a.DoReset?
    ensures HistoryBounded(Apply(s, a))
  {
  }

  /** From a bounded state (the initial one, say), the bound holds after any
      sequence of actions. */
  lemma {:induction false} ApplyAllKeepsHistoryBounded(s: State, actions: seq<Action>)
    requires HistoryBounded(s)
    ensures HistoryBounded(ApplyAll(s, actions))
    decreases |actions|
  {
    if |actions| > 0 {
      ApplyAllKeepsHistoryBounded(s, actions[..|actions| - 1]);
      ApplyKeepsHistoryBounded(ApplyAll(s, actions[..|actions| - 1]), actions[|actions| - 1]);
    }
  }

  /** Appending snapshots one after another, oldest first. */
  function AppendAll(h: seq<Metrics>, ms: seq<Metrics>): seq<Metrics>
    decreases |ms|
  {
    if |ms| == 0 then h
    else AppendBounded(AppendAll(h, ms[..|ms| - 1]), ms[|ms| - 1])
  }

  /** After any run of appends the history holds exactly the most recently
      added 100 (or fewer) snapshots, in insertion order, following whatever
      of the old history still fits. */
  lemma {:induction false} AppendAllKeepsMostRecent(h: seq<Metrics>, ms: seq<Metrics>)
    requires |h| <= HistoryLimit || |ms| > 0
    ensures AppendAll(h, ms) == Last(h + ms, HistoryLimit)
    decreases |ms|
  {
    if |ms| == 0 {
      assert h + ms == h;
      LastOfShort(h, HistoryLimit);
    } else {
      var init := ms[..|ms| - 1];
      var m := ms[|ms| - 1];
      if |init| == 0 {
        assert init == [] && h + init == h;
        if |h| <= HistoryLimit {
          LastOfShort(h, HistoryLimit);
        }
        calc {
          AppendAll(h, ms);
          AppendBounded(h, m);
          Last(h + [m], HistoryLimit);
          { assert h + [m] == h + ms; }
          Last(h + ms, HistoryLimit);
        }
      } else {
        AppendAllKeepsMostRecent(h, init);
        calc {
          AppendAll(h, ms);
          AppendBounded(Last(h + init, HistoryLimit), m);
          Last(Last(h + init, HistoryLimit) + [m], HistoryLimit);
          { LastAbsorbs(h + init, [m], HistoryLimit); }
          Last(h + init + [m], HistoryLimit);
          { assert h + init + [m] == h + ms; }
          Last(h + ms, HistoryLimit);
        }
      }
    }
  }

  /** `reset` after any sequence of actions gives the initial state, so in
      particular `reset` is idempotent. */
  lemma ResetForgetsEverything(s: State, actions: seq<Action>)
    ensures Apply(ApplyAll(s, actions), DoReset) == Initial
    ensures Reset(Reset(s)) == Reset(s)
  {
  }

  /** The persisted record depends on the history and the dual variables
      and on nothing else: two states have the same record exactly when
      they agree on those two fields. */
  lemma PartializeSelectsExactly(s: State, t: State)
    ensures Partialize(s) == Partialize(t)
      <==> s.historicalMetrics == t.historicalMetrics && s.dualVariables == t.dualVariables
  {
  }

  /** Persisting a state and restarting brings back its history and dual
      variables unchanged; restarting from a reset store gives exactly the
      initial state. */
  lemma RehydrateRoundTrip(s: State)
    ensures Partialize(Rehydrate(Partialize(s))) == Partialize(s)
    ensures Rehydrate(Partialize(s)).historicalMetrics == s.historicalMetrics
    ensures Rehydrate(Partialize(s)).dualVariables == s.dualVariables
    ensures Rehydrate(Partialize(Reset(s))) == Initial
  {
  }

  /** Any two setters of different fields commute: applying them in
      either order gives the same store. */
  lemma SettersCommute(s: State, a: Action, b: Action)
    requires !a.DoReset? && !b.DoReset? && FieldOf(a) != FieldOf(b)
    ensures Apply(Apply(s, a), b) == Apply(Apply(s, b), a)
  {
  }
}

=== FILE: windows.dfy ===
/** Sequence windows used by the console: JavaScript's `Array.prototype.slice`
    (with its clamping of negative and out-of-range indices) as the code
    calls it, `reverse`, and the independent characterisations the views
    rely on (the last k, the first k). */
module Windows {
  import opened Common

  /** The index `slice` actually starts (or ends) at for a relative index
      `i` on a sequence of length `len`: negative indices count from the
      end, and both kinds are clamped into [0, len]. */
  function ClampIndex(i: int, len: nat): (r: nat)
    ensures r <= len
    ensures i < 0 && -i <= len ==> r == len + i
    ensures i < 0 && -i > len ==> r == 0
    ensures 0 <= i <= len ==> r == i
    ensures i > len ==> r == len
  {
    if i < 0 then (if len + i < 0 then 0 else len + i)
    else if i < len then i
    else len
  }

  /** `s.slice(start)` when `end` is None, `s.slice(start, end)` otherwise. */
  function Slice<T>(s: seq<T>, start: int, end: Option<int>): (r: seq<T>)
    ensures r <= s[ClampIndex(start, |s|)..]
    ensures end.None? ==> r == s[ClampIndex(start, |s|)..]
    ensures end.Some? && ClampIndex(end.value, |s|) <= ClampIndex(start, |s|) ==> r == []
    ensures end.Some? && ClampIndex(start, |s|) <= ClampIndex(end.value, |s|) ==>
      |r| == ClampIndex(end.value, |s|) - ClampIndex(start, |s|)
  {
    var b := ClampIndex(start, |s|);
    var e := match end case None => |s| case Some(x) => ClampIndex(x, |s|);
    if b <= e then s[b..e] else []
  }

  /** The last `min(k, |s|)` elements of `s`, in their original order. */
  function Last<T>(s: seq<T>, k: nat): (r: seq<T>)
    ensures |r| == Min(k, |s|)
    ensures forall i :: 0 <= i < |r| ==> r[i] == s[|s| - |r| + i]
  {
    s[|s| - Min(k, |s|)..]
  }

  /** The first `min(k, |s|)` elements of `s`, in their original order. */
  function First<T>(s: seq<T>, k: nat): (r: seq<T>)
    ensures |r| == Min(k, |s|)
    ensures forall i :: 0 <= i < |r| ==> r[i] == s[i]
  {
    s[..Min(k, |s|)]
  }

  /** `s.slice().reverse()`: the same elements, last first. */
  function Reverse<T>(s: seq<T>): (r: seq<T>)
    ensures |r| == |s|
    ensures forall i :: 0 <= i < |s| ==> r[i] == s[|s| - 1 - i]
  {
    if |s| == 0 then [] else [s[|s| - 1]] + Reverse(s[..|s| - 1])
  }

  /** `slice(-k)` with a positive `k` keeps exactly the last k elements.
      (With k == 0 it would keep everything, since -0 is 0.) */
  lemma SliceNegativeIsLast<T>(s: seq<T>, k: nat)
    requires k > 0
    ensures Slice(s, -(k as int), None) == Last(s, k)
  {
  }

  /** `slice(0, k)` keeps exactly the first k elements. */
  lemma SlicePrefixIsFirst<T>(s: seq<T>, k: nat)
    ensures Slice(s, 0, Some(k)) == First(s, k)
  {
  }

  /** A window at least as wide as the sequence keeps all of it. */
  lemma LastOfShort<T>(s: seq<T>, k: nat)
    requires |s| <= k
    ensures Last(s, k) == s
  {
  }

  /** Appending one element and keeping k + 1 is keeping k, then appending. */
  lemma LastAppend<T>(s: seq<T>, x: T, k: nat)
    ensures Last(s + [x], k + 1) == Last(s, k) + [x]
  {
  }

  /** Truncating before appending more and truncating again changes nothing:
      the last k of (last k of s, then t) are the last k of s then t. */
  lemma LastAbsorbs<T>(s: seq<T>, t: seq<T>, k: nat)
    ensures Last(Last(s, k) + t, k) == Last(s + t, k)
  {
  }
}
